=== FILE: README.md ===
# Job-application tracker: record logic and terminal-UI state machine in Dafny

This project models the in-memory core of a personal job-application tracker
written in Rust. It has two parts.

- **Records.** A `Record` holds a last-action date, company name, job title
  (`subname`), place, free-text stage, additional notes and a `Status`
  (Todo, Pending, Rejected or Declined). The model covers:
  - the constructor and the mutators, each of which stamps the date with "today";
  - the status cycle Todo → Pending → Rejected → Todo, with Declined going to Todo;
  - the "stale" rule: not Todo, and 14 or more days since the last action;
  - the custom ordering: Todos first, then the latest date first;
  - the grouping step of loading;
  - the two command-line `print` row rules;
  - the summary bar's counts.
- **The terminal UI.** Each window's key handler is a pure step function over
  one `GuiState`. The state holds the collection, the focused window, the
  search text, the add form, the view mode, the set of indices changed this
  session, and the table selection. The windows are the table, the stage
  editor (plus the separate "stage window" of status_window.rs), the add form, the search
  bar, help and info.

Dates are integer day numbers. A stored date that does not parse is kept as
`Unparsable(text)`. Wherever the program parses a date and panics on failure,
the model has a precondition that the date parses. The program's `print`
reports the failure with `?` instead, so the model returns an error there.
"Today" comes in as a parameter (`Env.today`).

Several helpers are not part of this model: `GuiState::filter`,
`get_real_index`, `View::next`, `AddFocusField::next/prev`,
`TableState::select_*` and `Record::get_date`. They are function-valued fields
of `Gui.Env`, and every property is proved for all possible values of them.
The view mode is kept opaque for the same reason.

The source files come from several revisions. Some use `state.focus`, others
`state.window`; the model unifies them into one `Focus` tagged value:
`Table`, `StageEdit(text, target)`, `Help`, `Search`, `Add`, `Info`. The
`status_window.rs` stage window has its own small step function in `StatusWindow`.
`Record::next_stage` in records.rs calls `Status::next`, which is not part of
this model. The model assumes it is the cycle written out in types.rs:60-65
(`Types.NextStatus`); `Records.NextStage` and the table's Enter rest on that
assumption.

Points where the code's behaviour is easy to misread:

- Loading puts Rejected/Declined first, then Pending, then Todo. That is the
  reverse of the ordering `Ord` defines, which puts Todo first.
- The table handler in this revision has no add, edit, info or delete keys.
  Those keys fall through to "ignored".
- Esc in the add form gives the focus back to the table but keeps the form
  (`add` stays set).
- `s` on a selection that does not resolve to a record panics; it is not a
  no-op. That is a precondition of `TableWindow.HandleInput`.

The invariant `Gui.WellFormed` says three things: every changed index names
a record of the collection; so does the stage editor's target; and the add
window has a form while it has the focus. Every `GuiState` handler states in its contract that it preserves it. It
guarantees that the stage editor's Enter and the add form's unwraps never
fail (`StageEditWindow.WellFormedCanCommit`, `AddWindow.WellFormedAddReady`).

## Model

| member | source | states |
|---|---|---|
| Types.NextStatus | src/types.rs:60-65 | advancing never yields Declined and always changes the status |
| Types.NextCycle | src/types.rs:60-65 | the cycle order is Todo to Pending to Rejected to Todo; three advances return each of them to itself; Declined advances to Todo |
| Types.Iterate | src/types.rs:60-65 | any positive number of advances never reaches Declined |
| Types.IterateCycle | src/types.rs:60-65 | any whole number of turns (3m advances) returns a cycling status to itself |
| Types.StatusText | src/types.rs:14-23 | each status displays as its variant name ("Todo", "Pending", "Rejected", "Declined"), and only that status displays so |
| Types.StatusFromText | src/types.rs:14-23 | reading a status from text yields only a status that displays as that text |
| Types.StatusTextRoundTrip | src/types.rs:14-23 | the display text of each status reads back as that status |
| Types.StatusTextInjective | src/types.rs:14-23 | the four display texts are pairwise distinct |
| Types.Reverse | src/records.rs:52 | reversing a comparison keeps Equal and swaps Less with Greater |
| Records.New | src/records.rs:59-68 | a new record is Todo, dated today, with empty stage and notes, and takes name, job title and place from its arguments |
| Records.UpdateDate | src/records.rs:71-74 | the date becomes today and no other field changes |
| Records.NextStage | src/records.rs:77-80 | the status becomes its successor, the date today, and stage, name, job title, notes and place are unchanged |
| Records.SetStatus | src/records.rs:83-86 | the status becomes the argument, the date today, and nothing else changes |
| Records.SetStage | src/records.rs:89-92 | the stage becomes the argument, the date today, and nothing else changes |
| Records.IsOld | src/records.rs:95-105 | a stale record is never Todo and its last action lies strictly before today |
| Records.IsOldByStatus | src/records.rs:95-105 | a Todo is never stale; any other status is stale exactly when its date is 14 or more days before today |
| Records.IsOldMonotone | src/records.rs:104 | a record stale on one day is stale on every later day |
| Records.TouchedIsFresh | src/records.rs:71-105 | a record any mutator touched today is not stale today |
| Records.NextStageThrice | src/records.rs:77-80 | three advances on one day return a non-Declined record to itself, except that its date is today (under the assumed `Status::next` cycle of types.rs:60-65) |
| Records.SetStageLastWins | src/records.rs:89-92 | of two stage writes on one day only the second remains |
| Records.SetStatusNext | src/records.rs:77-86 | setting the status to its successor is the same as advancing |
| Records.Cmp | src/records.rs:44-54 | any Todo is Less than any non-Todo, and the reverse comparison is Greater |
| Records.CompareInt | src/records.rs:52 | date comparison is Less, Equal or Greater exactly as the day numbers compare |
| Records.CmpIsKeyOrder | src/records.rs:44-54 | the ordering is the lexicographic order of the key (0 for Todo else 1, negated date) |
| Records.CmpWithinGroup | src/records.rs:49-53 | within the Todo or the non-Todo group the later date sorts first, and equal dates compare Equal whatever the other fields |
| Records.CmpAntisymmetric | src/records.rs:44-54 | swapping the operands reverses the outcome |
| Records.CmpTransitive | src/records.rs:44-54 | with valid dates, both "not after" and "strictly before" are transitive |
| Records.CmpReflexive | src/records.rs:49-53 | a record with a valid date compares Equal to itself |
| Records.Get | src/records.rs:181-183 | a lookup succeeds exactly for indices below the length and yields the record there |
| Records.Filter | src/records.rs:159-163 | a group's filter keeps only records of that group and is no longer than its input |
| Records.FilterPartition | src/records.rs:159-165 | the three groups together hold every row exactly as often as the input does |
| Records.Load | src/records.rs:159-166 | loading yields a permutation of the parsed rows |
| Records.LoadGroupsInOrder | src/records.rs:164-166 | after loading, Rejected/Declined precede Pending, which precede Todo |
| Records.LoadKeepsFileOrder | src/records.rs:159-166 | inside each group the loaded order is the file order |
| Listing.Truncate | src/types.rs:85-88 | the cut text is a prefix of at most the limit, and is the whole text when that fits |
| Listing.PrintEntry | src/types.rs:76-119 | listing fails exactly on an unparsable date; the row is dimmed iff not Todo and 14 or more days old; when truncating, the notes become their first 30 characters (the whole notes if shorter); without truncating they are printed whole |
| Listing.PrintDimmedIffOld | src/types.rs:95 | the listing's dim test agrees with the stale rule |
| Listing.EntryLayout | src/records.rs:108-145 | the full row is printed iff not truncating; the dimmed short row iff truncating and stale |
| Listing.LayoutsAgree | src/records.rs:109 | both versions of `print` dim the same records when truncating |
| Gui.PopPush | src/status_edit_window.rs:52-61 | Backspace after typing a character restores the buffer |
| TableWindow.HandleInput | src/table_window.rs:67-113 | Esc ends the session without saving and `q` with saving, both without changing the state; all other keys continue; unlisted keys change nothing; only Enter touches records; the invariant is kept |
| TableWindow.EnterAdvancesSelected | src/table_window.rs:87-93 | Enter advances the resolved record and marks its index, leaving other records and fields alone; an index past the end changes nothing |
| TableWindow.StageKeyOpensEditor | src/table_window.rs:97-103 | `s` marks the index and opens the editor on a copy of that record's stage, targeting its real index; no record changes |
| TableWindow.ModeAndNavigationKeys | src/table_window.rs:75-109 | `v` changes only the view, `?` and `/` only the focus, arrows and page keys only the selection, Up applying `select_previous`, Down `select_next`, PageUp `select_first` and PageDown `select_last` |
| TableWindow.DrawRecord | src/table_window.rs:11-30 | a drawn row carries the real index, the record's date, name, job title and stage unchanged, a status text that reads back as the record's status, and the row colour |
| TableWindow.RowColor | src/table_window.rs:11-23 | Todo rows are red, closed rows green, pending rows grey iff stale and yellow otherwise |
| TableWindow.AdmittedIndices | src/table_window.rs:37-41 | the enumeration keeps exactly the indices the filter admits, in increasing order |
| TableWindow.DrawRows | src/table_window.rs:36-42 | the drawn rows are exactly the admitted records, in collection order, each labelled with its real index |
| AddWindow.HandleInput | src/add_window.rs:57-90 | Esc only refocuses the table; Up and Tab move the field focus to `prev`, Down to `next`, and change nothing else; a character is pushed onto, and Backspace pops, the focused field and nothing else changes; Enter appends one Todo record, drops the form and refocuses the table; every other key is ignored; search, changed set and view never change |
| AddWindow.WellFormedAddReady | src/add_window.rs:62-86 | in a well-formed state the focused add window always has the form its unwraps need |
| AddWindow.EditTouchesFocusedOnly | src/add_window.rs:68-87 | typing or deleting leaves the two unfocused fields unchanged |
| AddWindow.EnterAppendsNewRecord | src/add_window.rs:73-80 | Enter appends exactly `Record::new` of the three fields and selects the last row |
| AddWindow.BackspaceLaws | src/add_window.rs:81-87 | Backspace on an empty field changes nothing, and Backspace undoes a typed character |
| AddWindow.CursorOffsetAsWritten | src/add_window.rs:44-48 | the column as the drawing code computes it: the focused field's length for Company and JobName, but the job name's length for Place |
| AddWindow.CursorAsWrittenMisplaced | src/add_window.rs:44-48 | with the place field focused, the cursor as computed lands after the job name's length, not the place's |
| AddWindow.CursorOffset | src/add_window.rs:44-48 | the cursor sits just after the focused field's text |
| AddWindow.CursorFollowsTyping | src/add_window.rs:68-72 | typing moves the cursor one column right |
| StageEditWindow.HandleInput | src/status_edit_window.rs:40-64 | Esc returns to the table without changing records; Enter writes the buffer as the target's stage, dated today, changes no other record and returns to the table; Enter outside the editor only refocuses the table; characters and Backspace edit the buffer and keep the target |
| StageEditWindow.WellFormedCanCommit | src/status_edit_window.rs:46-49 | in a well-formed state Enter's target is always in range |
| StageEditWindow.BackspaceOnEmpty | src/status_edit_window.rs:57-61 | Backspace on an empty buffer changes nothing |
| StageEditWindow.EditAppendsToStage | src/status_edit_window.rs:46-56 | `s`, a character and Enter append that character to the selected record's stage |
| StageEditWindow.OpenThenEscChangesNoRecord | src/status_edit_window.rs:43-45 | opening the editor and pressing Esc changes no record |
| StatusWindow.RowToIndex | src/status_window.rs:26 | the reversed row-to-index mapping stays in range and is its own inverse |
| StatusWindow.HandleInput | src/status_window.rs:19-43 | Esc returns to the table; Enter sets the stage of record `len-1-selected` only and stays in the window; characters and Backspace edit the buffer; other keys change nothing |
| StatusWindow.TopRowIsLastRecord | src/status_window.rs:24-30 | selecting the top row edits the last record, and the bottom row the first |
| SearchBar.HandleInput | src/searchbar.rs:29-47 | Esc clears the search and returns to the table; a character extends the search text, which is then present and non-empty; other keys act as the table's handler with its flow dropped |
| SearchBar.CharactersStayInSearch | src/searchbar.rs:35-41 | every character, `q`, `v`, `?` and `/` included, leaves records, focus, view and selection unchanged |
| SearchBar.BackspaceKeepsSearch | src/searchbar.rs:42-45 | Backspace while searching changes nothing, the search text included |
| SearchBar.DelegatedKeysKeepSearch | src/searchbar.rs:42-45 | Enter and navigation act on the table and keep the search text |
| SearchBar.BarText | src/searchbar.rs:15-26 | focused, the bar shows the search text or nothing; unfocused, the word "search" |
| SearchBar.BarShowsTyping | src/searchbar.rs:35-41 | while searching each typed character appears at the end of the bar |
| HelpWindow.HandleInput | src/help_window.rs:54-61 | Esc or `q` returns to the table; other keys change nothing; records and search never change |
| HelpWindow.QuitClosesHelpOnly | src/help_window.rs:56-57 | `q` closes help, while in the table it ends the session with saving |
| InfoWindow.HandleInput | src/info_window.rs:53-60 | Esc or `q` returns to the table; other keys change nothing; only the focus can change |
| InfoWindow.Draw | src/info_window.rs:12-51 | the overlay needs the resolved index in range, and the selected record can be read back from it unchanged |
| SummaryBar.CountStatus | src/summarybar.rs:22-39 | a status count never exceeds the collection's size |
| SummaryBar.CountStale | src/summarybar.rs:27-29 | the stale-pending count never exceeds the pending count |
| SummaryBar.CountsPartition | src/summarybar.rs:21-39 | the four status counts add up to the collection's size |
| SummaryBar.CountAll | src/summarybar.rs:22-39 | one pass yields each status count and the stale-pending count, equal to the reference counts |
| SummaryBar.LatestDate | src/summarybar.rs:40-45 | the latest edit date is a record's date and no record's date is later |
| SummaryBar.Stats | src/summarybar.rs:20-45 | total is the length; the counts match the reference counts and add up to the total; stale pending plus fresh pending is pending; every count is at most the total; the last edit is the maximum date |

## Left out

- File I/O and serialisation: opening, reading and writing the CSV file in `Records::load` and `write`. Only the grouping step of `load` is modelled, on rows already parsed.
- Date text parsing and formatting, UTC offsets and time of day. Dates are day numbers. `NOW − date ≥ 2 weeks` equals `today − day ≥ 14` because NOW's time of day is under one day.
- Listing.Truncate: cuts characters, while `String::truncate` cuts bytes and panics off a character boundary; the two agree on ASCII text.
- Rendering: widgets, layouts, styles and colours beyond the row-colour choice, the help text, and all `println!` output. Only the decisions behind them are modelled: dimming, row shapes, the bar text and the info fields.
- `Status::print` (the coloured upper-case label) is left out, as styling.
- `TableState::select_previous/next/first/last`, `get_real_index`, `GuiState::filter`, `View::next`, `AddFocusField::next/prev` and `Record::get_date`. Their definitions are not part of this model, so they are parameters in `Gui.Env`.
- `Status::next` in records.rs. Its definition is not part of this model; `Records.NextStage` assumes it is the cycle of types.rs:60-65 (`Types.NextStatus`).
- AddWindow.CursorOffsetAsWritten: measures characters, while `String::len` counts bytes; the two columns agree only on ASCII text, and the same holds for `AddWindow.CursorOffset` and `AddWindow.CursorFollowsTyping`.
- `get_mut` and `len`. They appear as sequence update and `|rdr|` inside the handlers.
- The percentages of `single_val` (floating point).
- The event loop that polls keys and routes each one to the focused window: gui.rs and main.rs are not part of this model. So the model has no single top-level step function; each handler is modelled on its own.
- The command-line front end in main.rs: flag parsing, opening the file in an editor, and the early record shape without job title and place.

## Findings

| source | as written | input that shows it | evidently intended | confidence | as-written member | corrected member |
|---|---|---|---|---|---|---|
| src/add_window.rs:47 | the cursor column for the focused Place field is computed from `s.jobname.len()` | job name "ab", place "", Place focused: the cursor is drawn 2 columns into an empty field | the cursor follows the place text, as the Company and JobName rows follow theirs | high; not executed | AddWindow.CursorOffsetAsWritten | src/add_window.rs:44-48 | the column as the drawing code computes it: the focused field's length for Company and JobName, but the job name's length for Place |
| AddWindow.CursorAsWrittenMisplaced | AddWindow.CursorOffset |

=== FILE: add_window.dfy ===
/** The add form: moving between its three fields, editing the focused one,
    and turning it into a new record. */
module AddWindow {
  import opened Types
  import opened Records
  import opened Gui

  /** The text of the focused field. */
  function Focused(form: AddForm): string
  {
    match form.focus
    case Company => form.company
    case JobName => form.jobname
    case Place => form.place
  }

  /** Replaces the text of the focused field. */
  function SetFocused(form: AddForm, text: string): (f: AddForm)
    ensures Focused(f) == text && f.focus == form.focus
    ensures form.focus != Company ==> f.company == form.company
    ensures form.focus != JobName ==> f.jobname == form.jobname
    ensures form.focus != Place ==> f.place == form.place
  {
    match form.focus
    case Company => form.(company := text)
    case JobName => form.(jobname := text)
    case Place => form.(place := text)
  }

  /** The add form's key handler; it runs only while the form exists. Esc
      hands the focus back to the table and keeps the form as it is. Up and
      Tab move to the previous field, Down to the next. A character is
      typed into the focused field and Backspace deletes its last
      character. Enter appends a new record made of the three fields,
      drops the form, selects the last row and returns to the table. */
  function HandleInput(env: Env, key: Key, st: GuiState): (st': GuiState)
    requires st.add.Some?
    ensures key == Esc ==> st' == st.(focus := Table)
    ensures key != Enter ==> st'.rdr == st.rdr
    ensures key == Enter ==>
      && |st'.rdr| == |st.rdr| + 1
      && st'.rdr[..|st.rdr|] == st.rdr
      && st'.rdr[|st.rdr|].status == Todo
      && st'.add.None? && st'.focus == Table
    ensures (key == Up || key == Tab || key == Down) ==>
      && st'.add.Some?
      && st'.add.value == st.add.value.(focus := st'.add.value.focus)
    ensures (key == Up || key == Tab) ==>
      st' == st.(add := Some(st.add.value.(focus := env.prevField(st.add.value.focus))))
    ensures key == Down ==>
      st' == st.(add := Some(st.add.value.(focus := env.nextField(st.add.value.focus))))
    ensures key.Char? ==>
      st' == st.(add := Some(SetFocused(st.add.value, Push(Focused(st.add.value), key.c))))
    ensures key == Backspace ==>
      st' == st.(add := Some(SetFocused(st.add.value, Pop(Focused(st.add.value)))))
    ensures !(key in {Esc, Up, Tab, Down, Enter, Backspace} || key.Char?) ==> st' == st
    ensures key.Char? ==> st'.add.Some? && Focused(st'.add.value) == Push(Focused(st.add.value), key.c)
    ensures key == Backspace ==> st'.add.Some? && Focused(st'.add.value) == Pop(Focused(st.add.value))
    ensures (key.Char? || key == Backspace) ==> st'.add.value.focus == st.add.value.focus
    ensures st'.search == st.search && st'.changed == st.changed
    ensures st'.view == st.view
    ensures WellFormed(st) ==> WellFormed(st')
  {
    var form := st.add.value;
    match key
    case Esc => st.(focus := Table)
    case Up => st.(add := Some(form.(focus := env.prevField(form.focus))))
    case Tab => st.(add := Some(form.(focus := env.prevField(form.focus))))
    case Down => st.(add := Some(form.(focus := env.nextField(form.focus))))
    case Char(c) => st.(add := Some(SetFocused(form, Push(Focused(form), c))))
    case Enter =>
      var record := New(form.company, form.jobname, form.place, env.today);
      st.(rdr := st.rdr + [record], add := None,
          selection := env.selectLast(st.selection), focus := Table)
    case Backspace => st.(add := Some(SetFocused(form, Pop(Focused(form)))))
    case _ => st
  }

  /** In a well-formed state the add window, when focused, has its form, so
      the handler's requirement holds. */
  lemma WellFormedAddReady(st: GuiState)
    requires WellFormed(st) && st.focus == Add
    ensures st.add.Some?
  {
  }

  /** Typing or deleting touches the focused field only; the other two keep
      their text. */
  lemma EditTouchesFocusedOnly(env: Env, key: Key, st: GuiState)
    requires st.add.Some? && (key.Char? || key == Backspace)
    ensures var f, f' := st.add.value, HandleInput(env, key, st).add.value;
            && (f.focus != Company ==> f'.company == f.company)
            && (f.focus != JobName ==> f'.jobname == f.jobname)
            && (f.focus != Place ==> f'.place == f.place)
  {
  }

  /** Enter appends exactly the record `Record::new` builds from the three
      fields, dated today, and leaves the state otherwise as described. */
  lemma EnterAppendsNewRecord(env: Env, st: GuiState)
    requires st.add.Some?
    ensures var f := st.add.value;
            var st' := HandleInput(env, Enter, st);
            && st'.rdr == st.rdr + [New(f.company, f.jobname, f.place, env.today)]
            && st'.selection == env.selectLast(st.selection)
            && st'.search == st.search && st'.changed == st.changed
  {
  }

  /** Backspace on an empty field changes nothing, and Backspace after a
      typed character restores the form. */
  lemma BackspaceLaws(env: Env, st: GuiState, c: char)
    requires st.add.Some?
    ensures Focused(st.add.value) == [] ==> HandleInput(env, Backspace, st) == st
    ensures var typed := HandleInput(env, Char(c), st);
            HandleInput(env, Backspace, typed) == st
  {
    var f := st.add.value;
    var typed := HandleInput(env, Char(c), st);
    PopPush(Focused(f), c);
    assert typed.add.value == SetFocused(f, Push(Focused(f), c));
  }

  // ---------------------------------------------------------------------
  // Cursor placement

  /** The cursor's column inside the focused field as the drawing code
      computes it, counted in characters: for the place field it measures
      the job name. */
  function CursorOffsetAsWritten(form: AddForm): (col: nat)
    ensures form.focus != Place ==> col == |Focused(form)|
    ensures form.focus == Place ==> col == |form.jobname|
  {
    match form.focus
    case Company => |form.company|
    case JobName => |form.jobname|
    case Place => |form.jobname|
  }

  /** With the place field focused, a job name longer than the place puts
      the cursor past the end of the typed text. */
  lemma CursorAsWrittenMisplaced()
    ensures var form := AddForm("", "ab", "", Place);
            CursorOffsetAsWritten(form) == 2 && |Focused(form)| == 0
  {
  }

  /** The cursor's column inside the focused field: just after its text. */
  function CursorOffset(form: AddForm): (col: nat)
    ensures col == |Focused(form)|
  {
    match form.focus
    case Company => |form.company|
    case JobName => |form.jobname|
    case Place => |form.place|
  }

  /** Typing one character moves the cursor one column right. */
  lemma CursorFollowsTyping(env: Env, st: GuiState, c: char)
    requires st.add.Some?
    ensures CursorOffset(HandleInput(env, Char(c), st).add.value) == CursorOffset(st.add.value) + 1
  {
  }
}

=== FILE: gui.dfy ===
/** The state the terminal UI's input handlers step over, and the
    collaborators they use whose definitions are not part of this model.

    The window that has the input is one tagged value (`Focus`); the stage
    editor carries its text buffer and the real index of the record being
    edited. The add form lives beside it in `add`. */
module Gui {
  import opened Types
  import opened Records

  /** A key press, by key code. */
  datatype Key =
    | Esc | Enter | Up | Down | PageUp | PageDown | Tab | Backspace
    | Char(c: char)
    | OtherKey        // any key code no handler here names

  /** Whether to write the collection back when the session ends. */
  datatype Save = SaveFile | DoNotSave

  /** `ControlFlow<Save>`: keep running, or end the session. */
  datatype Flow = Continue | Break(save: Save)

  /** The field of the add form that has the cursor. */
  datatype AddField = Company | JobName | Place

  /** The add form: three text fields and the focused one. */
  datatype AddForm = AddForm(company: string, jobname: string, place: string, focus: AddField)

  /** The table's view mode. Its set of modes and their order are defined
      outside this model, so it is kept opaque. */
  datatype View = View(code: nat)

  /** The window that receives key presses. */
  datatype Focus =
    | Table
    | StageEdit(text: string, target: nat)
    | Help
    | Search
    | Add
    | Info

  /** The table's selected visible row, if any (`TableState::selected`). */
  type Selection = Option<nat>

  /** Everything the input handlers read and write. */
  datatype GuiState = GuiState(
    rdr: seq<Record>,          // the collection
    focus: Focus,
    search: Option<string>,    // the search text
    add: Option<AddForm>,
    view: View,
    changed: set<nat>,         // real indices touched this session
    selection: Selection)

  /** The clock and the helpers the handlers call but this model does not
      define; every property proved holds whatever they do. */
  datatype Env = Env(
    today: int,                                  // the day the session runs
    realIndex: GuiState -> nat,                  // selected visible row -> real index
    visible: (GuiState, nat, Record) -> bool,    // the table's row filter
    nextView: View -> View,
    nextField: AddField -> AddField,
    prevField: AddField -> AddField,
    selectPrevious: Selection -> Selection,
    selectNext: Selection -> Selection,
    selectFirst: Selection -> Selection,
    selectLast: Selection -> Selection,
    dateOf: Record -> int)                       // a record's date as a day number

  /** The invariant the handlers keep: every index marked as changed, and the
      stage editor's target, name a record of the collection, and the add
      window has a form while it has the focus. */
  predicate WellFormed(st: GuiState) {
    (forall i :: i in st.changed ==> i < |st.rdr|) &&
    (st.focus.StageEdit? ==> st.focus.target < |st.rdr|) &&
    (st.focus == Add ==> st.add.Some?)
  }

  /** Appends a character to a text buffer (`String::push`). */
  function Push(s: string, c: char): (t: string)
    ensures |t| == |s| + 1 && t[..|s|] == s && t[|s|] == c
  {
    s + [c]
  }

  /** Drops the last character of a text buffer, if any (`String::pop`). */
  function Pop(s: string): (t: string)
    ensures |s| == 0 ==> t == s
    ensures |s| > 0 ==> |t| == |s| - 1 && t == s[..|t|]
  {
    if |s| == 0 then s else s[..|s| - 1]
  }

  /** Backspace undoes a typed character. */
  lemma PopPush(s: string, c: char)
    ensures Pop(Push(s, c)) == s
  {
  }
}

=== FILE: help_window.dfy ===
/** The help overlay: read-only, left with Esc or `q`. */
module HelpWindow {
  import opened Gui
  import TableWindow

  /** The help handler: Esc or `q` returns to the table, nothing else
      changes, and no key ends the session. */
  function HandleInput(key: Key, st: GuiState): (st': GuiState)
    ensures key == Esc || key == Char('q') ==> st' == st.(focus := Table)
    ensures !(key == Esc || key == Char('q')) ==> st' == st
    ensures st'.rdr == st.rdr && st'.search == st.search
    ensures WellFormed(st) ==> WellFormed(st')
  {
    match key
    case Esc => st.(focus := Table)
    case Char('q') => st.(focus := Table)
    case _ => st
  }

  /** `q` closes the help overlay, where in the table it ends the session. */
  lemma QuitClosesHelpOnly(env: Env, st: GuiState)
    ensures HandleInput(Char('q'), st).focus == Table
    ensures TableWindow.HandleInput(env, Char('q'), st).flow == Break(SaveFile)
  {
  }
}

=== FILE: info_window.dfy ===
/** The info overlay: every field of the selected record. */
module InfoWindow {
  import opened Types
  import opened Records
  import opened Gui

  /** The info handler: Esc or `q` returns to the table; only the focus can
      change. */
  function HandleInput(key: Key, st: GuiState): (st': GuiState)
    ensures key == Esc || key == Char('q') ==> st'.focus == Table
    ensures !(key == Esc || key == Char('q')) ==> st' == st
    ensures st' == st.(focus := st'.focus)
    ensures WellFormed(st) ==> WellFormed(st')
  {
    match key
    case Esc => st.(focus := Table)
    case Char('q') => st.(focus := Table)
    case _ => st
  }

  /** What the overlay shows, line by line; the status as its display text. */
  datatype InfoText = InfoText(name: string, subname: string, date: DateText, stage: string,
                               additionalInfo: string, status: string, place: string)

  /** The overlay for the selected record. The record is looked up without
      a check, so the selected row must resolve to one. The overlay loses
      nothing: the record can be read back from it. */
  function Draw(env: Env, st: GuiState): (t: InfoText)
    requires env.realIndex(st) < |st.rdr|
    ensures ReadBack(t) == Some(st.rdr[env.realIndex(st)])
  {
    var r := st.rdr[env.realIndex(st)];
    StatusTextRoundTrip(r.status);
    InfoText(r.name, r.subname, r.lastActionDate, r.stage, r.additionalInfo, StatusText(r.status), r.place)
  }

  /** Reads a record back from an overlay. */
  function ReadBack(t: InfoText): Option<Record>
  {
    match StatusFromText(t.status)
    case None => None
    case Some(s) => Some(Record(t.date, t.name, t.subname, t.stage, t.additionalInfo, s, t.place))
  }
}

=== FILE: listing.dfy ===
/** The rules behind the command-line listing of one record: whether the row
    is dimmed as stale, and how much of the additional information it shows.
    Two revisions of `print` exist; both are modelled, and the lemmas show
    they agree on the stale rule with `Records.IsOld`. Text layout and
    terminal styling are not modelled. */
module Listing {
  import opened Types
  import opened Records

  /** The listing cuts additional information to this many characters. */
  const InfoWidth: nat := 30

  /** `s` cut to at most `n` characters (`String::truncate`). */
  function Truncate(s: string, n: nat): (t: string)
    ensures |t| <= |s| && t == s[..|t|]
    ensures |t| == if |s| <= n then |s| else n
  {
    if |s| <= n then s else s[..n]
  }

  /** What the types.rs listing prints for a record, apart from fixed fields. */
  datatype Printed = Printed(dimmed: bool, info: string)

  /** Why a record cannot be listed. */
  datatype PrintError = DateParseError

  /** The types.rs `print`: the additional information, cut to 30 characters
      when `truncate` is set, and a dimmed row for a stale record. A date
      that does not parse is reported as an error, not a panic. */
  function PrintEntry(r: Record, truncate: bool, today: int): (res: Result<Printed, PrintError>)
    ensures res.Err? <==> !HasDate(r)
    ensures res.Ok? ==> (res.value.dimmed <==> r.status != Todo && r.lastActionDate.n + 14 <= today)
    ensures res.Ok? && truncate ==> |res.value.info| <= InfoWidth && res.value.info <= r.additionalInfo
    ensures res.Ok? && truncate ==>
      |res.value.info| == if |r.additionalInfo| <= InfoWidth then |r.additionalInfo| else InfoWidth
    ensures res.Ok? && (!truncate || |r.additionalInfo| <= InfoWidth) ==> res.value.info == r.additionalInfo
  {
    var info := if truncate then Truncate(r.additionalInfo, InfoWidth) else r.additionalInfo;
    match r.lastActionDate
    case Unparsable(_) => Err(DateParseError)
    case Day(d) => Ok(Printed(r.status != Todo && today - d >= 2 * 7, info))
  }

  /** The types.rs listing dims exactly the records the stale rule calls old. */
  lemma PrintDimmedIffOld(r: Record, truncate: bool, today: int)
    requires HasDate(r)
    ensures PrintEntry(r, truncate, today).Ok?
    ensures PrintEntry(r, truncate, today).value.dimmed == IsOld(r, today)
  {
  }

  /** The three row shapes of the records.rs `print`. */
  datatype Layout =
    | DimmedShort   // stale, without the additional information
    | Short         // not stale, without the additional information
    | Full          // everything, including the additional information

  /** The records.rs `print`: a full row unless `truncate` is set, and then a
      dimmed short row for a stale record. The stale test, which parses the
      date, runs only when `truncate` is set. */
  function EntryLayout(r: Record, truncate: bool, today: int): (l: Layout)
    requires truncate ==> HasDate(r)
    ensures l == Full <==> !truncate
    ensures l == DimmedShort <==> truncate && r.status != Todo && r.lastActionDate.n + 14 <= today
  {
    if truncate && IsOld(r, today) then DimmedShort
    else if truncate then Short
    else Full
  }

  /** Both versions of `print` dim the same records when truncating. */
  lemma LayoutsAgree(r: Record, today: int)
    requires HasDate(r)
    ensures (EntryLayout(r, true, today) == DimmedShort) == PrintEntry(r, true, today).value.dimmed
  {
  }
}

=== FILE: records.dfy ===
/** One job application and the collection of them: the constructor, the
    mutators that keep the last-action date as an audit trail, the "stale"
    rule, the custom ordering, and the grouping the collection is put in
    when it is loaded. "Today" is a day number passed in by the caller. */
module Records {
  import opened Types

  /** An application counts as stale two weeks after its last action. */
  const StaleDays: int := 14

  /** A record of a job application. */
  datatype Record = Record(
    lastActionDate: DateText,  // the last time any action happened to this job
    name: string,              // the company
    subname: string,           // the job title
    stage: string,             // free text: first interview, second, ...
    additionalInfo: string,
    status: Status,
    place: string)

  /** The stored date parses. */
  predicate HasDate(r: Record) {
    r.lastActionDate.Day?
  }

  /** `a` and `b` agree on every field except possibly the date. */
  predicate AgreeExceptDate(a: Record, b: Record) {
    a.name == b.name && a.subname == b.subname && a.stage == b.stage &&
    a.additionalInfo == b.additionalInfo && a.status == b.status && a.place == b.place
  }

  /** `a` and `b` agree on the descriptive fields no mutator touches. */
  predicate SameDescription(a: Record, b: Record) {
    a.name == b.name && a.subname == b.subname &&
    a.additionalInfo == b.additionalInfo && a.place == b.place
  }

  /** A fresh application: still to do, dated today, no stage and no notes. */
  function New(company: string, jobname: string, place: string, today: int): (r: Record)
    ensures r.status == Todo && r.lastActionDate == Day(today)
    ensures r.stage == [] && r.additionalInfo == []
    ensures r.name == company && r.subname == jobname && r.place == place
  {
    Record(Day(today), company, jobname, [], [], Todo, place)
  }

  /** Stamps the record with today's date and changes nothing else. */
  function UpdateDate(r: Record, today: int): (r': Record)
    ensures r'.lastActionDate == Day(today)
    ensures AgreeExceptDate(r', r)
  {
    r.(lastActionDate := Day(today))
  }

  /** Advances the status one step of the cycle and stamps today's date. */
  function NextStage(r: Record, today: int): (r': Record)
    ensures r'.status == NextStatus(r.status) && r'.lastActionDate == Day(today)
    ensures r'.stage == r.stage && SameDescription(r', r)
  {
    UpdateDate(r.(status := NextStatus(r.status)), today)
  }

  /** Sets the status and stamps today's date. */
  function SetStatus(r: Record, status: Status, today: int): (r': Record)
    ensures r'.status == status && r'.lastActionDate == Day(today)
    ensures r'.stage == r.stage && SameDescription(r', r)
  {
    UpdateDate(r.(status := status), today)
  }

  /** Sets the stage text and stamps today's date. */
  function SetStage(r: Record, stage: string, today: int): (r': Record)
    ensures r'.stage == stage && r'.lastActionDate == Day(today)
    ensures r'.status == r.status && SameDescription(r', r)
  {
    UpdateDate(r.(stage := stage), today)
  }

  /** The stale rule: an application that is not Todo and whose last action
      lies two weeks or more before today. The date is parsed whatever the
      status, so it must parse. */
  function IsOld(r: Record, today: int): (stale: bool)
    requires HasDate(r)
    ensures stale ==> r.status != Todo
    ensures stale ==> r.lastActionDate.n < today
  {
    r.status != Todo && today - r.lastActionDate.n >= StaleDays
  }

  /** Stated per status: a Todo is never stale, any other status is stale
      exactly from the fourteenth day after its last action. */
  lemma IsOldByStatus(r: Record, today: int)
    requires HasDate(r)
    ensures r.status == Todo ==> !IsOld(r, today)
    ensures r.status != Todo ==> (IsOld(r, today) <==> r.lastActionDate.n + 14 <= today)
  {
  }

  /** Staleness only grows as time passes. */
  lemma IsOldMonotone(r: Record, today: int, later: int)
    requires HasDate(r) && today <= later
    ensures IsOld(r, today) ==> IsOld(r, later)
  {
  }

  /** A record any mutator touched today is not stale today. */
  lemma TouchedIsFresh(r: Record, s: Status, stage: string, today: int)
    ensures !IsOld(UpdateDate(r, today), today)
    ensures !IsOld(NextStage(r, today), today)
    ensures !IsOld(SetStatus(r, s, today), today)
    ensures !IsOld(SetStage(r, stage, today), today)
  {
  }

  /** Advancing three times on the same day brings a cycling record back to
      itself, save that its date is today. */
  lemma NextStageThrice(r: Record, today: int)
    requires r.status != Declined
    ensures NextStage(NextStage(NextStage(r, today), today), today) == UpdateDate(r, today)
  {
    NextCycle(r.status);
  }

  /** The last stage written on a day is the one that stays. */
  lemma SetStageLastWins(r: Record, first: string, second: string, today: int)
    ensures SetStage(SetStage(r, first, today), second, today) == SetStage(r, second, today)
  {
  }

  /** Setting the status to the one `NextStage` would choose is the same as
      advancing. */
  lemma SetStatusNext(r: Record, today: int)
    ensures SetStatus(r, NextStatus(r.status), today) == NextStage(r, today)
  {
  }

  // ---------------------------------------------------------------------
  // Ordering

  /** The dates `Cmp` parses are present: they are parsed only when the two
      records are both Todo or both not Todo. */
  predicate Comparable(a: Record, b: Record) {
    (a.status == Todo) == (b.status == Todo) ==> HasDate(a) && HasDate(b)
  }

  /** The custom ordering: every Todo before every other record, and within
      each of those two groups the most recent last action first. */
  function Cmp(a: Record, b: Record): (o: Ordering)
    requires Comparable(a, b)
    ensures a.status == Todo && b.status != Todo ==> o == Less
    ensures a.status != Todo && b.status == Todo ==> o == Greater
  {
    if a.status == Todo && b.status != Todo then Less
    else if a.status != Todo && b.status == Todo then Greater
    else Reverse(CompareInt(a.lastActionDate.n, b.lastActionDate.n))
  }

  /** Three-way comparison of integers (`Ord::cmp` on dates). */
  function CompareInt(x: int, y: int): (o: Ordering)
    ensures o == Less <==> x < y
    ensures o == Equal <==> x == y
  {
    if x < y then Less else if x == y then Equal else Greater
  }

  /** The key the ordering sorts by, as an independent reference: the group
      (0 for Todo, 1 otherwise), then the date negated. */
  function SortKey(r: Record): (int, int)
    requires HasDate(r)
  {
    (if r.status == Todo then 0 else 1, -r.lastActionDate.n)
  }

  /** Lexicographic comparison of keys. */
  function CompareKeys(x: (int, int), y: (int, int)): Ordering
  {
    if x.0 != y.0 then CompareInt(x.0, y.0) else CompareInt(x.1, y.1)
  }

  /** `Cmp` is the lexicographic order of the sort keys. */
  lemma CmpIsKeyOrder(a: Record, b: Record)
    requires HasDate(a) && HasDate(b)
    ensures Cmp(a, b) == CompareKeys(SortKey(a), SortKey(b))
  {
  }

  /** Within one group the later date sorts first, and equal dates compare
      Equal whatever the names, stages or places. */
  lemma CmpWithinGroup(a: Record, b: Record)
    requires (a.status == Todo) == (b.status == Todo)
    requires HasDate(a) && HasDate(b)
    ensures Cmp(a, b) == Less <==> a.lastActionDate.n > b.lastActionDate.n
    ensures Cmp(a, b) == Equal <==> a.lastActionDate.n == b.lastActionDate.n
    ensures Cmp(a, b) == Greater <==> a.lastActionDate.n < b.lastActionDate.n
  {
  }

  /** Swapping the operands reverses the outcome. */
  lemma CmpAntisymmetric(a: Record, b: Record)
    requires Comparable(a, b)
    ensures Comparable(b, a)
    ensures Cmp(b, a) == Reverse(Cmp(a, b))
  {
  }

  /** "Sorts no later than" is transitive, and so is "sorts strictly before". */
  lemma CmpTransitive(a: Record, b: Record, c: Record)
    requires HasDate(a) && HasDate(b) && HasDate(c)
    ensures Cmp(a, b) != Greater && Cmp(b, c) != Greater ==> Cmp(a, c) != Greater
    ensures Cmp(a, b) == Less && Cmp(b, c) == Less ==> Cmp(a, c) == Less
  {
    CmpIsKeyOrder(a, b);
    CmpIsKeyOrder(b, c);
    CmpIsKeyOrder(a, c);
  }

  /** Every record with a date compares Equal to itself, so with
      `CmpAntisymmetric` and `CmpTransitive` the ordering is a total preorder. */
  lemma CmpReflexive(a: Record)
    requires HasDate(a)
    ensures Cmp(a, a) == Equal
  {
  }

  // ---------------------------------------------------------------------
  // The collection

  /** Looks up the record at a real index (`get`); absent past the end. */
  function Get(rs: seq<Record>, i: nat): (r: Option<Record>)
    ensures r.Some? <==> i < |rs|
    ensures r.Some? ==> r.value == rs[i]
  {
    if i < |rs| then Some(rs[i]) else None
  }

  /** The three groups loading puts the collection in, in this order. */
  datatype LoadGroup = Closed | Waiting | Open

  /** Rejected and Declined are closed, Pending is waiting, Todo is open. */
  function GroupOf(s: Status): LoadGroup
  {
    match s
    case Rejected => Closed
    case Declined => Closed
    case Pending => Waiting
    case Todo => Open
  }

  /** The position of a group in the loaded collection. */
  function Rank(g: LoadGroup): nat
  {
    match g
    case Closed => 0
    case Waiting => 1
    case Open => 2
  }

  /** The records of group `g`, in their original order. */
  function Filter(rows: seq<Record>, g: LoadGroup): (out: seq<Record>)
    ensures |out| <= |rows|
    ensures forall k :: 0 <= k < |out| ==> GroupOf(out[k].status) == g
  {
    if |rows| == 0 then []
    else
      var rest := Filter(rows[1..], g);
      assert rows == [rows[0]] + rows[1..];
      if GroupOf(rows[0].status) == g then [rows[0]] + rest else rest
  }

  /** The grouping step of loading: closed applications first, then the
      pending ones, then the Todos, each group in file order. */
  function Load(rows: seq<Record>): (out: seq<Record>)
    ensures |out| == |rows|
    ensures multiset(out) == multiset(rows)
  {
    FilterPartition(rows);
    var out := Filter(rows, Closed) + Filter(rows, Waiting) + Filter(rows, Open);
    assert |multiset(out)| == |out| && |multiset(rows)| == |rows|;
    out
  }

  /** The three groups split the rows: together they hold each row exactly
      as often as the rows do. */
  lemma {:induction false} FilterPartition(rows: seq<Record>)
    ensures multiset(Filter(rows, Closed)) + multiset(Filter(rows, Waiting)) + multiset(Filter(rows, Open))
         == multiset(rows)
  {
    if |rows| > 0 {
      var x, rest := rows[0], rows[1..];
      FilterPartition(rest);
      assert rows == [x] + rest;
      assert multiset(rows) == multiset{x} + multiset(rest);
      var c, w, o := Filter(rest, Closed), Filter(rest, Waiting), Filter(rest, Open);
      match GroupOf(x.status)
      case Closed =>
        assert Filter(rows, Closed) == [x] + c;
        assert multiset([x] + c) == multiset{x} + multiset(c);
      case Waiting =>
        assert Filter(rows, Waiting) == [x] + w;
        assert multiset([x] + w) == multiset{x} + multiset(w);
      case Open =>
        assert Filter(rows, Open) == [x] + o;
        assert multiset([x] + o) == multiset{x} + multiset(o);
    }
  }

  /** Filtering distributes over concatenation. */
  lemma {:induction false} FilterAppend(xs: seq<Record>, ys: seq<Record>, g: LoadGroup)
    ensures Filter(xs + ys, g) == Filter(xs, g) + Filter(ys, g)
  {
    if |xs| == 0 {
      assert xs + ys == ys;
    } else {
      var x := xs[0];
      FilterAppend(xs[1..], ys, g);
      assert xs + ys == [x] + (xs[1..] + ys);
      assert xs == [x] + xs[1..];
      var head := if GroupOf(x.status) == g then [x] else [];
      assert Filter(xs + ys, g) == head + Filter(xs[1..] + ys, g);
      assert Filter(xs, g) == head + Filter(xs[1..], g);
    }
  }

  /** Filtering a group by its own group keeps it; by another empties it. */
  lemma {:induction false} FilterFilter(rows: seq<Record>, g: LoadGroup, h: LoadGroup)
    ensures Filter(Filter(rows, g), h) == if g == h then Filter(rows, g) else []
  {
    if |rows| > 0 {
      FilterFilter(rows[1..], g, h);
    }
  }

  /** Loading keeps file order inside each group: the members of any group
      appear in the loaded collection exactly as they did in the file. */
  lemma LoadKeepsFileOrder(rows: seq<Record>, g: LoadGroup)
    ensures Filter(Load(rows), g) == Filter(rows, g)
  {
    var c, w, o := Filter(rows, Closed), Filter(rows, Waiting), Filter(rows, Open);
    FilterAppend(c + w, o, g);
    FilterAppend(c, w, g);
    FilterFilter(rows, Closed, g);
    FilterFilter(rows, Waiting, g);
    FilterFilter(rows, Open, g);
  }

  /** Loading orders the groups: no record of a later group precedes one of
      an earlier group. */
  lemma LoadGroupsInOrder(rows: seq<Record>)
    ensures forall i, j :: 0 <= i < j < |Load(rows)| ==>
      Rank(GroupOf(Load(rows)[i].status)) <= Rank(GroupOf(Load(rows)[j].status))
  {
    var c, w, o := Filter(rows, Closed), Filter(rows, Waiting), Filter(rows, Open);
    var out := Load(rows);
    assert out == c + w + o;
    forall i | 0 <= i < |out|
      ensures Rank(GroupOf(out[i].status)) == if i < |c| then 0 else if i < |c| + |w| then 1 else 2
    {
      if i < |c| {
        assert out[i] == c[i];
      } else if i < |c| + |w| {
        assert out[i] == w[i - |c|];
      } else {
        assert out[i] == o[i - |c| - |w|];
      }
    }
  }
}

=== FILE: searchbar.dfy ===
/** The search bar: typing builds the search text, Esc clears it, and every
    other key is passed on to the table. */
module SearchBar {
  import opened Types
  import opened Gui
  import TableWindow

  /** The search handler. Esc clears the search text and returns to the
      table. Every character, `q` included, is appended to the search text,
      which is created if absent. Any other key goes to the table handler,
      whose request to end the session is dropped. */
  function HandleInput(env: Env, key: Key, st: GuiState): (st': GuiState)
    ensures key == Esc ==> st' == st.(search := None, focus := Table)
    ensures key.Char? ==> st' == st.(search := Some(st.search.GetOr([]) + [key.c]))
    ensures key.Char? ==> st'.search.Some? && |st'.search.value| > 0
    ensures !key.Esc? && !key.Char? ==> st' == TableWindow.HandleInput(env, key, st).state
    ensures WellFormed(st) ==> WellFormed(st')
  {
    match key
    case Esc => st.(search := None, focus := Table)
    case Char(k) =>
      (match st.search
       case Some(s) => st.(search := Some(Push(s, k)))
       case None => assert [] + [k] == [k]; st.(search := Some([k])))
    case _ => TableWindow.HandleInput(env, key, st).state
  }

  /** A character typed in search never reaches the table: the records,
      view, selection and focus stay as they were, whichever character. */
  lemma CharactersStayInSearch(env: Env, st: GuiState, c: char)
    ensures var st' := HandleInput(env, Char(c), st);
            st'.rdr == st.rdr && st'.focus == st.focus && st'.view == st.view &&
            st'.selection == st.selection && st'.changed == st.changed
  {
  }

  /** Backspace in search mode goes to the table, which ignores it, so the
      search text stays as it is. */
  lemma BackspaceKeepsSearch(env: Env, st: GuiState)
    ensures HandleInput(env, Backspace, st) == st
  {
  }

  /** Navigation and Enter still act on the table while searching, and the
      search text is kept. */
  lemma DelegatedKeysKeepSearch(env: Env, key: Key, st: GuiState)
    requires key == Enter || key == Up || key == Down || key == PageUp || key == PageDown
    ensures HandleInput(env, key, st).search == st.search
    ensures HandleInput(env, key, st) == TableWindow.HandleInput(env, key, st).state
  {
  }

  /** The bar's text: the search text (or nothing) while it has the focus,
      else the placeholder "search". */
  function BarText(st: GuiState): (t: string)
    ensures st.focus != Search ==> t == "search"
    ensures st.focus == Search && st.search.Some? ==> t == st.search.value
    ensures st.focus == Search && st.search.None? ==> t == []
  {
    if st.focus == Search then st.search.GetOr([]) else "search"
  }

  /** While searching, each typed character appears at the end of the bar. */
  lemma BarShowsTyping(env: Env, st: GuiState, c: char)
    requires st.focus == Search
    ensures BarText(HandleInput(env, Char(c), st)) == BarText(st) + [c]
  {
  }
}

=== FILE: stage_edit_window.dfy ===
/** The stage editor: a text buffer, seeded with the record's stage when the
    table opens it, committed to the record on Enter. */
module StageEditWindow {
  import opened Types
  import opened Records
  import opened Gui
  import TableWindow

  /** The editor may commit: Enter writes to the target record without a
      check, so the target must be a record of the collection. */
  predicate CanCommit(key: Key, st: GuiState) {
    key == Enter && st.focus.StageEdit? ==> st.focus.target < |st.rdr|
  }

  /** The stage editor's key handler. Esc returns to the table and drops the
      buffer. Enter sets the target record's stage to the buffer, stamping
      today's date, and returns to the table. A character is appended to
      the buffer and Backspace deletes its last character. */
  function HandleInput(env: Env, key: Key, st: GuiState): (st': GuiState)
    requires CanCommit(key, st)
    ensures key == Esc ==> st' == st.(focus := Table)
    ensures key == Enter ==> st'.focus == Table && |st'.rdr| == |st.rdr|
    ensures key == Enter && !st.focus.StageEdit? ==> st' == st.(focus := Table)
    ensures key == Enter && st.focus.StageEdit? ==>
      var i := st.focus.target;
      && st'.rdr[i].stage == st.focus.text
      && st'.rdr[i].lastActionDate == Day(env.today)
      && st'.rdr[i].status == st.rdr[i].status
      && SameDescription(st'.rdr[i], st.rdr[i])
      && (forall j :: 0 <= j < |st.rdr| && j != i ==> st'.rdr[j] == st.rdr[j])
    ensures key != Enter ==> st'.rdr == st.rdr
    ensures key.Char? && st.focus.StageEdit? ==> st'.focus == StageEdit(Push(st.focus.text, key.c), st.focus.target)
    ensures key == Backspace && st.focus.StageEdit? ==> st'.focus == StageEdit(Pop(st.focus.text), st.focus.target)
    ensures !(key == Esc || key == Enter || ((key.Char? || key == Backspace) && st.focus.StageEdit?)) ==> st' == st
    ensures st'.search == st.search && st'.add == st.add && st'.changed == st.changed &&
            st'.view == st.view && st'.selection == st.selection
    ensures WellFormed(st) ==> WellFormed(st')
  {
    match key
    case Esc => st.(focus := Table)
    case Enter =>
      var rdr := if st.focus.StageEdit? then
                   var i := st.focus.target;
                   st.rdr[i := SetStage(st.rdr[i], st.focus.text, env.today)]
                 else st.rdr;
      st.(rdr := rdr, focus := Table)
    case Char(c) =>
      if st.focus.StageEdit? then st.(focus := StageEdit(Push(st.focus.text, c), st.focus.target)) else st
    case Backspace =>
      if st.focus.StageEdit? then st.(focus := StageEdit(Pop(st.focus.text), st.focus.target)) else st
    case _ => st
  }

  /** In a well-formed state the editor can always commit. */
  lemma WellFormedCanCommit(key: Key, st: GuiState)
    requires WellFormed(st)
    ensures CanCommit(key, st)
  {
  }

  /** Backspace on an empty buffer changes nothing. */
  lemma BackspaceOnEmpty(env: Env, st: GuiState, i: nat)
    requires st.focus == StageEdit([], i)
    ensures HandleInput(env, Backspace, st) == st
  {
  }

  /** Opening the editor with `s`, typing a character and pressing Enter
      appends that character to the selected record's stage. */
  lemma EditAppendsToStage(env: Env, st: GuiState, c: char)
    requires env.realIndex(st) < |st.rdr|
    ensures var ri := env.realIndex(st);
            var editing := TableWindow.HandleInput(env, Char('s'), st).state;
            var typed := HandleInput(env, Char(c), editing);
            var done := HandleInput(env, Enter, typed);
            && done.rdr[ri].stage == st.rdr[ri].stage + [c]
            && done.rdr[ri].status == st.rdr[ri].status
            && done.focus == Table
            && ri in done.changed
  {
    TableWindow.StageKeyOpensEditor(env, st);
  }

  /** Opening the editor and leaving it with Esc changes no record. */
  lemma OpenThenEscChangesNoRecord(env: Env, st: GuiState)
    requires env.realIndex(st) < |st.rdr|
    ensures var editing := TableWindow.HandleInput(env, Char('s'), st).state;
            HandleInput(env, Esc, editing).rdr == st.rdr
  {
  }
}

=== FILE: status_window.dfy ===
/** The stage window of status_window.rs. It maps the selected row `k` to
    the record at `len - 1 - k`. */
module StatusWindow {
  import opened Types
  import opened Records
  import opened Gui

  /** The windows this revision's handler distinguishes. */
  datatype Window = Table | StageWindow(text: string)

  /** The real index of the record shown at selected row `k`; the mapping
      is its own inverse, so every record has exactly one row. */
  function RowToIndex(len: nat, k: nat): (i: nat)
    requires k < len
    ensures i < len && len - 1 - i == k
  {
    len - 1 - k
  }

  /** Enter's requirement: inside the stage window a row is selected and
      it lies within the collection, or the subtraction and lookup fail. */
  predicate CanCommit(key: Key, window: Window, selected: Selection, rdr: seq<Record>) {
    key == Enter && window.StageWindow? ==> selected.Some? && selected.value < |rdr|
  }

  /** The stage window's handler. Esc returns to the table. Enter writes the buffer as
      the stage of the selected record and stays in the window. A character
      is appended to the buffer and Backspace deletes its last character. */
  function HandleInput(key: Key, window: Window, selected: Selection, rdr: seq<Record>, today: int)
    : (res: (Window, seq<Record>))
    requires CanCommit(key, window, selected, rdr)
    ensures key == Esc ==> res == (Window.Table, rdr)
    ensures key != Enter ==> res.1 == rdr
    ensures key == Enter ==> res.0 == window && |res.1| == |rdr|
    ensures key == Enter && window.StageWindow? ==>
      var i := RowToIndex(|rdr|, selected.value);
      && res.1[i] == SetStage(rdr[i], window.text, today)
      && (forall j :: 0 <= j < |rdr| && j != i ==> res.1[j] == rdr[j])
    ensures key.Char? && window.StageWindow? ==> res.0 == StageWindow(Push(window.text, key.c))
    ensures key == Backspace && window.StageWindow? ==> res.0 == StageWindow(Pop(window.text))
    ensures !(key == Esc || (window.StageWindow? && (key == Enter || key.Char? || key == Backspace))) ==>
      res == (window, rdr)
  {
    match key
    case Esc => (Window.Table, rdr)
    case Enter =>
      if window.StageWindow? then
        var i := RowToIndex(|rdr|, selected.value);
        (window, rdr[i := SetStage(rdr[i], window.text, today)])
      else (window, rdr)
    case Char(c) => if window.StageWindow? then (StageWindow(Push(window.text, c)), rdr) else (window, rdr)
    case Backspace => if window.StageWindow? then (StageWindow(Pop(window.text)), rdr) else (window, rdr)
    case _ => (window, rdr)
  }

  /** Selecting the top row edits the last record of the collection, and
      the bottom row the first. */
  lemma TopRowIsLastRecord(rdr: seq<Record>, text: string, today: int)
    requires |rdr| > 0
    ensures HandleInput(Enter, StageWindow(text), Some(0), rdr, today).1[|rdr| - 1].stage == text
    ensures HandleInput(Enter, StageWindow(text), Some(|rdr| - 1), rdr, today).1[0].stage == text
  {
  }
}

=== FILE: summarybar.dfy ===
/** The summary bar's statistics: how many applications there are in each
    status, how many pending ones are stale, and the latest edit date.
    Percentages and formatting are not modelled. */
module SummaryBar {
  import opened Types
  import opened Records
  import opened Gui

  /** The number of records with status `s`. */
  function CountStatus(rs: seq<Record>, s: Status): (n: nat)
    ensures n <= |rs|
  {
    if |rs| == 0 then 0
    else CountStatus(rs[..|rs| - 1], s) + (if rs[|rs| - 1].status == s then 1 else 0)
  }

  /** Every pending record's date parses, as the stale test needs. */
  predicate PendingDated(rs: seq<Record>) {
    forall i :: 0 <= i < |rs| && rs[i].status == Pending ==> HasDate(rs[i])
  }

  /** The number of pending records that are stale. */
  function CountStale(rs: seq<Record>, today: int): (n: nat)
    requires PendingDated(rs)
    ensures n <= CountStatus(rs, Pending)
  {
    if |rs| == 0 then 0
    else
      var last := rs[|rs| - 1];
      CountStale(rs[..|rs| - 1], today) + (if last.status == Pending && IsOld(last, today) then 1 else 0)
  }

  /** The four statuses split the collection: their counts add up to its
      length. */
  lemma {:induction false} CountsPartition(rs: seq<Record>)
    ensures CountStatus(rs, Todo) + CountStatus(rs, Pending) + CountStatus(rs, Rejected) +
            CountStatus(rs, Declined) == |rs|
  {
    if |rs| > 0 {
      CountsPartition(rs[..|rs| - 1]);
    }
  }

  /** The statistics the bar shows. `freshPending` is the "Pnd" figure, the pending
      applications that are not stale. */
  datatype Summary = Summary(total: nat, todos: nat, pending: nat, pendingPast: nat, freshPending: nat,
                             rejected: nat, declined: nat, lastEdit: int)

  /** The latest date of a non-empty collection, with a record that has it. */
  method LatestDate(env: Env, rs: seq<Record>) returns (last: int)
    requires |rs| > 0
    ensures exists i :: 0 <= i < |rs| && env.dateOf(rs[i]) == last
    ensures forall i :: 0 <= i < |rs| ==> env.dateOf(rs[i]) <= last
  {
    last := env.dateOf(rs[0]);
    ghost var w := 0;  // a record with the latest date
    var i := 1;
    while i < |rs|
      invariant 1 <= i <= |rs|
      invariant 0 <= w < |rs| && env.dateOf(rs[w]) == last
      invariant forall j :: 0 <= j < i ==> env.dateOf(rs[j]) <= last
    {
      if env.dateOf(rs[i]) > last {
        last, w := env.dateOf(rs[i]), i;
      }
      i := i + 1;
    }
  }

  /** Counts each status, and the stale pending records, in one pass. */
  method CountAll(env: Env, rs: seq<Record>) returns (todos: nat, pending: nat, past: nat, rejected: nat, declined: nat)
    requires PendingDated(rs)
    ensures todos == CountStatus(rs, Todo) && pending == CountStatus(rs, Pending)
    ensures rejected == CountStatus(rs, Rejected) && declined == CountStatus(rs, Declined)
    ensures past == CountStale(rs, env.today)
  {
    todos, pending, past, rejected, declined := 0, 0, 0, 0, 0;
    var i := 0;
    while i < |rs|
      invariant 0 <= i <= |rs|
      invariant todos == CountStatus(rs[..i], Todo) && pending == CountStatus(rs[..i], Pending)
      invariant rejected == CountStatus(rs[..i], Rejected) && declined == CountStatus(rs[..i], Declined)
      invariant PendingDated(rs[..i]) && past == CountStale(rs[..i], env.today)
    {
      var r := rs[i];
      assert rs[..i + 1][..i] == rs[..i];
      assert rs[..i + 1][i] == r;
      match r.status {
        case Todo => todos := todos + 1;
        case Pending =>
          pending := pending + 1;
          if IsOld(r, env.today) {
            past := past + 1;
          }
        case Rejected => rejected := rejected + 1;
        case Declined => declined := declined + 1;
      }
      i := i + 1;
    }
    assert rs[..i] == rs;
  }

  /** The bar's statistics. The latest date is taken with an unchecked
      maximum, so the collection must not be empty. */
  method Stats(env: Env, rs: seq<Record>) returns (s: Summary)
    requires |rs| > 0
    requires PendingDated(rs)
    ensures s.total == |rs|
    ensures s.todos == CountStatus(rs, Todo) && s.pending == CountStatus(rs, Pending)
    ensures s.rejected == CountStatus(rs, Rejected) && s.declined == CountStatus(rs, Declined)
    ensures s.pendingPast == CountStale(rs, env.today)
    ensures s.todos + s.pending + s.rejected + s.declined == s.total
    ensures s.freshPending + s.pendingPast == s.pending
    ensures s.pendingPast <= s.pending <= s.total
    ensures s.todos <= s.total && s.rejected <= s.total && s.declined <= s.total
    ensures exists i :: 0 <= i < |rs| && env.dateOf(rs[i]) == s.lastEdit
    ensures forall i :: 0 <= i < |rs| ==> env.dateOf(rs[i]) <= s.lastEdit
  {
    var todos, pending, past, rejected, declined := CountAll(env, rs);
    var last := LatestDate(env, rs);
    CountsPartition(rs);
    s := Summary(|rs|, todos, pending, past, pending - past, rejected, declined, last);
  }
}

=== FILE: table_window.dfy ===
/** The table window: its key handler, the rows it draws and their colours. */
module TableWindow {
  import opened Types
  import opened Records
  import opened Gui

  /** A handler's result: the new state and whether the session goes on. */
  datatype Step = Step(state: GuiState, flow: Flow)

  /** The keys the table reacts to. */
  predicate Handled(key: Key) {
    key.Esc? || key.Enter? || key.Up? || key.Down? || key.PageUp? || key.PageDown? ||
    (key.Char? && key.c in "qvs?/")
  }

  /** The table's key handler. Esc ends the session without saving and `q`
      ends it saving; every other key keeps it running. Enter advances the
      selected record, `s` opens the stage editor on it, `v` cycles the view,
      `?` and `/` open help and search, the arrows and page keys move the
      selection. Opening the stage editor looks the record up without a
      check, so the selected row must resolve to a record. */
  function HandleInput(env: Env, key: Key, st: GuiState): (res: Step)
    requires key == Char('s') ==> env.realIndex(st) < |st.rdr|
    ensures key == Esc ==> res == Step(st, Break(DoNotSave))
    ensures key == Char('q') ==> res == Step(st, Break(SaveFile))
    ensures key != Esc && key != Char('q') ==> res.flow == Continue
    ensures !Handled(key) ==> res.state == st
    ensures key != Enter ==> res.state.rdr == st.rdr
    ensures |res.state.rdr| == |st.rdr|
    ensures res.state.search == st.search && res.state.add == st.add
    ensures WellFormed(st) ==> WellFormed(res.state)
  {
    match key
    case Esc => Step(st, Break(DoNotSave))
    case Char('q') => Step(st, Break(SaveFile))
    case Up => Step(st.(selection := env.selectPrevious(st.selection)), Continue)
    case Down => Step(st.(selection := env.selectNext(st.selection)), Continue)
    case PageUp => Step(st.(selection := env.selectFirst(st.selection)), Continue)
    case PageDown => Step(st.(selection := env.selectLast(st.selection)), Continue)
    case Enter =>
      var ri := env.realIndex(st);
      if ri < |st.rdr| then
        Step(st.(rdr := st.rdr[ri := NextStage(st.rdr[ri], env.today)],
                 changed := st.changed + {ri}), Continue)
      else
        Step(st, Continue)
    case Char('v') => Step(st.(view := env.nextView(st.view)), Continue)
    case Char('s') =>
      var ri := env.realIndex(st);
      Step(st.(changed := st.changed + {ri}, focus := StageEdit(st.rdr[ri].stage, ri)), Continue)
    case Char('?') => Step(st.(focus := Help), Continue)
    case Char('/') => Step(st.(focus := Search), Continue)
    case _ => Step(st, Continue)
  }

  /** Enter on a row that resolves to a record advances that record's status
      and stamps it with today's date, marks its index as changed, and
      leaves every other record and the rest of the state alone. A row that
      resolves past the end changes nothing. */
  lemma EnterAdvancesSelected(env: Env, st: GuiState)
    ensures var res := HandleInput(env, Enter, st).state;
            var ri := env.realIndex(st);
            if ri < |st.rdr| then
              && res.rdr[ri].status == NextStatus(st.rdr[ri].status)
              && res.rdr[ri].lastActionDate == Day(env.today)
              && res.rdr[ri].stage == st.rdr[ri].stage
              && SameDescription(res.rdr[ri], st.rdr[ri])
              && (forall j :: 0 <= j < |st.rdr| && j != ri ==> res.rdr[j] == st.rdr[j])
              && res.changed == st.changed + {ri}
              && res.focus == st.focus && res.view == st.view && res.selection == st.selection
            else res == st
  {
  }

  /** `s` marks the selected record as changed and opens the stage editor on
      a copy of its stage, targeting its real index; no record changes. */
  lemma StageKeyOpensEditor(env: Env, st: GuiState)
    requires env.realIndex(st) < |st.rdr|
    ensures var res := HandleInput(env, Char('s'), st).state;
            var ri := env.realIndex(st);
            && res.focus == StageEdit(st.rdr[ri].stage, ri)
            && res.rdr == st.rdr
            && res.changed == st.changed + {ri}
            && res.view == st.view && res.selection == st.selection
  {
  }

  /** `v` changes only the view, `?` and `/` change only the focus, and the
      arrow and page keys change only the selection: Up to the previous row,
      Down to the next, PageUp to the first and PageDown to the last. */
  lemma ModeAndNavigationKeys(env: Env, st: GuiState)
    ensures HandleInput(env, Char('v'), st).state == st.(view := env.nextView(st.view))
    ensures HandleInput(env, Char('?'), st).state == st.(focus := Help)
    ensures HandleInput(env, Char('/'), st).state == st.(focus := Search)
    ensures forall k :: k in [Up, Down, PageUp, PageDown] ==>
      HandleInput(env, k, st).state == st.(selection := HandleInput(env, k, st).state.selection)
    ensures HandleInput(env, Up, st).state == st.(selection := env.selectPrevious(st.selection))
    ensures HandleInput(env, Down, st).state == st.(selection := env.selectNext(st.selection))
    ensures HandleInput(env, PageUp, st).state == st.(selection := env.selectFirst(st.selection))
    ensures HandleInput(env, PageDown, st).state == st.(selection := env.selectLast(st.selection))
  {
  }

  // ---------------------------------------------------------------------
  // Drawing

  /** The colour of a table row. */
  datatype Color = Red | DarkGray | Yellow | Green

  /** Todo rows are red, closed rows green, and pending rows yellow or, once
      stale, grey. Only a pending record's date is parsed. */
  function RowColor(r: Record, today: int): (c: Color)
    requires r.status == Pending ==> HasDate(r)
    ensures c == Red <==> r.status == Todo
    ensures c == Green <==> r.status == Rejected || r.status == Declined
    ensures c == DarkGray <==> r.status == Pending && IsOld(r, today)
    ensures c == Yellow <==> r.status == Pending && !IsOld(r, today)
  {
    match r.status
    case Todo => Red
    case Pending => if IsOld(r, today) then DarkGray else Yellow
    case Rejected => Green
    case Declined => Green
  }

  /** One drawn row: the real index, the status text, the date, name, job
      title and stage, and the colour. */
  datatype Row = Row(index: nat, status: string, date: DateText, name: string,
                     subname: string, stage: string, color: Color)

  /** The row drawn for record `r` at real index `index`: it shows the
      record's fields unchanged, its status as readable text, and the
      colour its status and age call for. */
  function DrawRecord(index: nat, r: Record, today: int): (row: Row)
    requires r.status == Pending ==> HasDate(r)
    ensures row.index == index && StatusFromText(row.status) == Some(r.status)
    ensures row.date == r.lastActionDate && row.name == r.name && row.subname == r.subname && row.stage == r.stage
    ensures row.color == RowColor(r, today)
  {
    StatusTextRoundTrip(r.status);
    Row(index, StatusText(r.status), r.lastActionDate, r.name, r.subname, r.stage, RowColor(r, today))
  }

  /** The filter admits the record at real index `i`. */
  predicate Admitted(env: Env, st: GuiState, i: nat) {
    i < |st.rdr| && env.visible(st, i, st.rdr[i])
  }

  /** Drawing an admitted row parses no date that is missing. */
  predicate Drawable(env: Env, st: GuiState) {
    forall i: nat :: i < |st.rdr| && Admitted(env, st, i) && st.rdr[i].status == Pending ==>
      HasDate(st.rdr[i])
  }

  /** The real indices the filter admits, in increasing order. */
  method AdmittedIndices(env: Env, st: GuiState) returns (idx: seq<nat>)
    ensures forall k :: 0 <= k < |idx| ==> Admitted(env, st, idx[k])
    ensures forall k, l :: 0 <= k < l < |idx| ==> idx[k] < idx[l]
    ensures forall i: nat :: Admitted(env, st, i) ==> i in idx
  {
    idx := [];
    var i := 0;
    while i < |st.rdr|
      invariant 0 <= i <= |st.rdr|
      invariant forall k :: 0 <= k < |idx| ==> Admitted(env, st, idx[k]) && idx[k] < i
      invariant forall k, l :: 0 <= k < l < |idx| ==> idx[k] < idx[l]
      invariant forall j: nat :: j < i && Admitted(env, st, j) ==> j in idx
    {
      if env.visible(st, i, st.rdr[i]) {
        idx := idx + [i];
      }
      i := i + 1;
    }
  }

  /** The table's rows: exactly the records the filter admits, in collection
      order, each labelled with its real index. */
  method DrawRows(env: Env, st: GuiState) returns (rows: seq<Row>)
    requires Drawable(env, st)
    ensures forall k :: 0 <= k < |rows| ==>
      Admitted(env, st, rows[k].index) && rows[k] == DrawRecord(rows[k].index, st.rdr[rows[k].index], env.today)
    ensures forall k, l :: 0 <= k < l < |rows| ==> rows[k].index < rows[l].index
    ensures forall i: nat :: Admitted(env, st, i) ==> exists k :: 0 <= k < |rows| && rows[k].index == i
  {
    var idx := AdmittedIndices(env, st);
    rows := [];
    while |rows| < |idx|
      invariant |rows| <= |idx|
      invariant forall k :: 0 <= k < |rows| ==> rows[k] == DrawRecord(idx[k], st.rdr[idx[k]], env.today)
    {
      var i := idx[|rows|];
      rows := rows + [DrawRecord(i, st.rdr[i], env.today)];
    }
    forall i: nat | Admitted(env, st, i)
      ensures exists k :: 0 <= k < |rows| && rows[k].index == i
    {
      var k :| 0 <= k < |idx| && idx[k] == i;
      assert rows[k].index == i;
    }
  }
}

=== FILE: types.dfy ===
/** Small value types of the job-application tracker: the application status
    with its display text and its cycle, the stored last-action date, the
    comparison outcome, and the optional/result wrappers used for lookups and
    fallible rendering. */
module Types {

  /** A value that may be absent (Rust's `Option`). */
  datatype Option<T> = None | Some(value: T) {

    /** The wrapped value, or `default` when absent (`unwrap_or`). */
    function GetOr(default: T): T {
      match this
      case Some(v) => v
      case None => default
    }
  }

  /** The outcome of an operation that can fail (Rust's `Result`). */
  datatype Result<T, E> = Ok(value: T) | Err(error: E)

  /** The outcome of a three-way comparison (`std::cmp::Ordering`). */
  datatype Ordering = Less | Equal | Greater

  /** The outcome of the same comparison with its operands swapped. */
  function Reverse(o: Ordering): (r: Ordering)
    ensures (r == Equal) == (o == Equal)
    ensures r != o || o == Equal
  {
    match o
    case Less => Greater
    case Equal => Equal
    case Greater => Less
  }

  /** Where an application stands. */
  datatype Status = Todo | Pending | Rejected | Declined

  /** The status one press of "advance" moves to: the cycle
      Todo -> Pending -> Rejected -> Todo. Declined is set by hand only;
      advancing it restarts the cycle at Todo. */
  function NextStatus(s: Status): (r: Status)
    ensures r != Declined
    ensures r != s
  {
    match s
    case Todo => Pending
    case Pending => Rejected
    case Rejected => Todo
    case Declined => Todo
  }

  /** The `Display` text of a status, which is also its variant name. */
  function StatusText(s: Status): (t: string)
    ensures 4 <= |t| <= 8
    ensures s == Todo <==> t == "Todo"
    ensures s == Pending <==> t == "Pending"
    ensures s == Rejected <==> t == "Rejected"
    ensures s == Declined <==> t == "Declined"
  {
    match s
    case Todo => "Todo"
    case Pending => "Pending"
    case Rejected => "Rejected"
    case Declined => "Declined"
  }

  /** Reads a status back from its display text; the inverse of `StatusText`. */
  function StatusFromText(t: string): (r: Option<Status>)
    ensures r.Some? ==> StatusText(r.value) == t
  {
    if t == "Todo" then Some(Todo)
    else if t == "Pending" then Some(Pending)
    else if t == "Rejected" then Some(Rejected)
    else if t == "Declined" then Some(Declined)
    else None
  }

  /** The display text identifies the status: reading it back gives the
      status that was shown. */
  lemma StatusTextRoundTrip(s: Status)
    ensures StatusFromText(StatusText(s)) == Some(s)
  {
  }

  /** The four display texts are pairwise distinct. */
  lemma StatusTextInjective(a: Status, b: Status)
    ensures StatusText(a) == StatusText(b) ==> a == b
  {
    StatusTextRoundTrip(a);
    StatusTextRoundTrip(b);
  }

  /** The cycle runs Todo -> Pending -> Rejected -> Todo; advancing three
      times from any status of it returns to that status, and Declined is
      left for Todo in one step. */
  lemma NextCycle(s: Status)
    ensures NextStatus(Todo) == Pending && NextStatus(Pending) == Rejected && NextStatus(Rejected) == Todo
    ensures s != Declined ==> NextStatus(NextStatus(NextStatus(s))) == s
    ensures NextStatus(Declined) == Todo
    ensures NextStatus(NextStatus(NextStatus(Todo))) == Todo
  {
  }

  /** `s` advanced `k` times; no positive number of steps reaches Declined. */
  function Iterate(s: Status, k: nat): (r: Status)
    ensures k > 0 ==> r != Declined
  {
    if k == 0 then s else NextStatus(Iterate(s, k - 1))
  }

  /** Any whole number of turns of the cycle returns a cycling status to
      itself. */
  lemma {:induction false} IterateCycle(s: Status, m: nat)
    requires s != Declined
    ensures Iterate(s, 3 * m) == s
  {
    if m > 0 {
      IterateCycle(s, m - 1);
      var k := 3 * (m - 1);
      assert Iterate(s, k + 1) == NextStatus(Iterate(s, k));
      assert Iterate(s, k + 2) == NextStatus(Iterate(s, k + 1));
      assert Iterate(s, k + 3) == NextStatus(Iterate(s, k + 2));
      NextCycle(s);
    }
  }

  /** The stored last-action date. The program keeps it as
      `[day]-[month]-[year]` text and parses it on use; here a text that
      parses is represented by its day number, and any other text is kept
      as it was read. */
  datatype DateText = Day(n: int) | Unparsable(text: string)
}
